=== FILE: README.md ===
# Match-3 board engine in Dafny

A model of the board engine of a browser match-3 game (`script.js`): an
8 x 8 grid of colour indices stored row-major, the adjacency test that
validates a drag, the tile swap, the scan for runs of three or more, the
per-cell `matched` flag that makes every cell score once, gravity with
refill of the top row, and the level rules (target per level, next level,
fresh board with score 0).

The model is functional. A board is a `seq<Cell>` of 64 cells, each
`Empty` (the source's empty-string type) or `Tile(kind)`, plus a
`seq<bool>` of `matched` flags. The source's timers are collapsed into
ordered synchronous steps, taken in the order they fire: swap, scan, level
check, clearing of the cells the scan flagged, gravity passes until a pass
swaps nothing, scan again, and so on. The random colour source becomes a
parameter: `fill` for a new board and `draw(n, c)` for the tile dropped
into the top of column `c` in gravity pass `n`.

The code is modelled as written, with its quirks:

- the `matched` flag belongs to the position: the swap moves only the
  type, a refill of row 0 is the only thing that clears a flag, and a stale
  flag keeps its position from scoring or being cleared again;
- a scan schedules for clearing only the cells it flags itself;
- gravity stops after the first pass without a swap, and each pass refills
  only row 0, so a column can keep empty cells below its new top tile;
- the level check runs once per drop, on the score after the first scan;
  points from the cascade are checked at the next drop.

Three consequences of the code are stated as lemmas: each gravity pass
refills only row 0 and gravity stops after a pass with no swap, so holes
can remain below a refilled top cell (`Gravity.SettledBoardKeepsHoles`);
a chain of rounds on a full board whose lines of three are all flagged
repeats forever (`Session.StuckRoundRepeats`); and the level is checked once per
drop, before the cascade (`Session.Drop`).

Modules: `Grid` (board, adjacency, swap), `Matching` (runs from one cell),
`Scan` (whole-board scan, flags, score, clearing), `Gravity` (column passes
and the gravity loop), `Session` (drop, cascade, levels).

## Model

| member | source | states |
|---|---|---|
| Grid.NeighborIffAdjacent | script.js:66-72 | `IsNeighbor`, the row-plus-column distance test, holds exactly when: two cells are neighbours exactly when one is the next cell in the same row or the cell directly above or below the other |
| Grid.NeighborSymmetricIrreflexive | script.js:66-72 | adjacency is symmetric and no cell is its own neighbour |
| Grid.RowEndNotNeighborOfNextRowStart | script.js:66-72 | the last cell of a row is not a neighbour of the first cell of the next row, although their indices differ by one |
| Grid.SwapTiles | script.js:75-80 | the types of the two cells are exchanged, every other cell keeps its type, the matched flags do not move, and the multiset of types is kept |
| Grid.SwapTwiceRestores | script.js:75-80 | swapping the same two cells twice gives back the board |
| Matching.Backward | script.js:110-114 | the walk left (or up, lines 123-127) collects consecutive cells of the given type nearest first and stops at the edge or at the first cell of another type |
| Matching.Forward | script.js:116-120 | the walk right (or down, lines 129-133) collects consecutive cells of the given type nearest first and stops at the edge or at the first cell of another type |
| Matching.FindMatches | script.js:104-136 | the list starts with the cell itself, has between 1 and 8 entries, has no duplicates, stays in the cell's row or column, and every entry after the first has the searched type |
| Matching.FindMatchesIsMaximalRun | script.js:104-136 | the entries are exactly the cells of one maximal segment of the line through the cell whose cells other than the start have the searched type |
| Matching.RunMembers | script.js:104-136 | a cell of the line is in the list exactly when its position lies between the start and the end of the run |
| Matching.RunBoundaries | script.js:110-133 | the list length is the run's span, and the cells just outside the run are off the board or of another type |
| Matching.LongRunIffTriple | script.js:88-98 | a tile has a run of three or more in a direction exactly when it lies in three consecutive same-coloured tiles in that direction |
| Scan.MarkTileMatched | script.js:139-151 | the cell's flag is set and no other flag changes; an unflagged cell adds 10 points and is scheduled for clearing; a flagged cell changes nothing |
| Scan.MarkIdempotent | script.js:139-151 | marking a cell twice has the effect of marking it once |
| Scan.MarkAll | script.js:91-97 | marking a list flags exactly its cells and scores 10 for each cell it newly flags, however often the list names it |
| Scan.ScanFrom | script.js:86-99 | the scan of cells from i on flags exactly the cells in a run of three or more through some scanned tile, skips empty cells, and reports whether any such run exists |
| Scan.CheckMatches | script.js:84-101 | the scan flags exactly the cells lying in a line of three same-coloured tiles, schedules exactly those it flags anew, adds 10 per scheduled cell, leaves the types alone, and reports true exactly when some line of three exists |
| Scan.CheckClearsNewlyMatched | script.js:139-151 | the points of a scan are 10 times the number of unflagged cells in a line of three, and a scan that finds nothing changes neither board nor score |
| Scan.CheckWithStaleFlags | script.js:141-144 | when every line of three lies on flagged cells the scan flags, scores and schedules nothing |
| Scan.ClearCells | script.js:146-149 | exactly the scheduled cells become empty, every other cell keeps its type, and no flag changes |
| Gravity.SinkColumn | script.js:170-183 | the walk up a column from the bottom keeps the column's tiles in order, moves something exactly when some empty cell has a tile above it, and leaves the tiles as a block at the bottom |
| Gravity.GapIffUnsettled | script.js:172-180 | some empty cell below row 0 has a tile above it exactly when the column is not settled |
| Gravity.ColumnPass | script.js:169-191 | one column pass keeps the tiles in order at the bottom, puts the drawn colour at row 0 exactly when the column had an empty cell, lowers the column's empty count by one when it has any, and swaps exactly when the column was not settled |
| Gravity.ColumnPassTileOrigin | script.js:184-191 | every tile after a column pass is the drawn tile or was already in the column |
| Gravity.GravityPass | script.js:167-192 | every column is passed on its own, and the pass reports a move exactly when some column was not settled |
| Gravity.GravityPassFlags | script.js:186-191 | a pass clears the flag of a refilled top cell and of no other cell |
| Gravity.GravityPassShrinks | script.js:168-194 | a pass never adds an empty cell, and a pass that swapped removes at least one, which bounds the number of passes |
| Gravity.GravityPassInPalette | script.js:187-188 | with draws in [0, 5) a pass keeps every tile's colour in [0, 5) |
| Gravity.PassDescends | script.js:167-192 | after a pass each column's old tiles end its new tiles in the same order, no flag is set, flags below row 0 are kept, and the number of empty cells does not grow |
| Gravity.ApplyGravity | script.js:167-201 | the loop ends; afterwards every top cell holds a tile and the rest of every column is settled, the old tiles of each column end its new tiles, no flag was set, and colours stay in [0, 5) |
| Gravity.SettledBoardKeepsHoles | script.js:193-200 | on a board whose columns are all settled the loop makes one pass, changes nothing below row 0, and leaves each column with one empty cell fewer, so holes remain below a refilled top |
| Gravity.FullBoardUnchanged | script.js:167-194 | on a board without empty cells the loop makes one pass that changes nothing, flags included |
| Session.CreateBoard | script.js:20-44 | a new board has a tile of the given colour in every cell and no flag set |
| Session.NewGame | script.js:11-12 | the game starts at level 1 with score 0 on a fresh board |
| Session.TargetsRiseByFive | script.js:15-16 | the target of level l is 45 + 5 l, and `LevelComplete`, the test of script.js:211, holds for a score exactly from that target on |
| Session.NextLevel | script.js:219-228 | the level goes up by one; past the last level the game is over with board and score kept, otherwise the score is 0 and the board fresh |
| Session.Round | script.js:193-200 | one round of the chain clears, applies gravity and scans: the tiles left in each column after the scheduled cells are emptied end the column's tiles after the round, in order; its points are 10 per cell it schedules, every scheduled cell is flagged and lies in a line of three, every unflagged cell in a line of three is scheduled, and below row 0 a cell is scheduled exactly when it lies in a line of three and was not flagged before the round, it reports a run exactly when the board has a line of three, every cell in a line of three ends up flagged, and a scan without a run schedules nothing |
| Session.Cascade | script.js:193-200 | the chain's score grows by 10 per cell its scans newly flag, and a chain that stops because its scan found no run leaves no line of three |
| Session.Drop | script.js:52-63 | a drop on a non-neighbour changes nothing; otherwise the swap is kept even without a match, and the level is complete exactly when the score plus 10 per newly flagged cell of the swapped board reaches the level's target |
| Session.Turn | script.js:210-216 | a turn raises the level by one exactly when the drop is on a neighbour and the score plus 10 per newly flagged cell of the swapped board reaches the level's target, and otherwise keeps the level; a raised level that is not past the last starts at score 0 on a fresh board |
| Session.StuckRoundRepeats | script.js:193-200 | on a full board whose lines of three all lie on flagged cells, a round gives back the same board and reports a run again, so the chain never ends |

## Left out

- Presentation: DOM elements, event listeners, colour strings, the sparkle
  effect and the text updates are not modelled.
- Timing: the timers are taken as ordered synchronous steps. A drop that
  lands while a cascade is still running is not modelled, and neither is a
  cascade still running when the next level rebuilds the tiles, which in
  the source keeps scanning and scoring on the new board.
- Randomness: `Math.random` becomes the parameters `fill` and `draw`; the
  range [0, 5) of its colours is the assumption `ValidDraw` and the premise
  of `Session.CreateBoard`'s palette clause.
- A drop before any drag started (`selectedTile` still null) and drops after
  the game is over are not modelled.
- `findMatches` with a direction other than horizontal or vertical returns
  only the cell itself; the scan never calls it so, and the model has only
  the two directions.
- Session.Cascade: the source repeats rounds for as long as a scan reports a
  run, which can be forever (`Session.StuckRoundRepeats`); the model stops
  after `fuel` further rounds and then reports `settled` false, and states
  only the score bookkeeping and the no-run outcome, not the final board.
  Its `flaggedCount` counts the cells its own scans flag for the first
  time: the cells the drop's scan flagged are scored by `Session.Drop`,
  and the cells flagged by the last scan before `fuel` runs out stay on
  the board.
- Session.Drop: each drop's gravity passes are numbered from 0 and read
  their colours from that drop's own `draw`.
- After the last level the source removes the board from the page; the
  model keeps the tiles, which nothing reads any more.

=== FILE: gravity.dfy ===
/** Gravity: each pass compacts every column towards the bottom by
    swapping tiles down into empty cells, then refills the top cell of a
    column if it is empty. Passes repeat while some pass swapped a tile. */
module Gravity {
  import opened Grid

  /** The cells of column `c`, top (row 0) to bottom. */
  function Column(types: seq<Cell>, c: nat): (col: seq<Cell>)
    requires |types| == CellCount && c < GridSize
    ensures |col| == GridSize
    ensures forall r :: 0 <= r < GridSize ==> col[r] == types[At(r, c)]
  {
    seq(GridSize, r requires 0 <= r < GridSize => types[At(r, c)])
  }

  /** The tiles of a column, top to bottom, with the empty cells left out. */
  function Tiles(col: seq<Cell>): (r: seq<Cell>)
    ensures |r| <= |col|
    ensures forall k :: 0 <= k < |r| ==> r[k].Tile?
  {
    if |col| == 0 then []
    else (if col[0].Tile? then [col[0]] else []) + Tiles(col[1..])
  }

  /** The number of empty cells of a column. */
  function EmptyCount(col: seq<Cell>): nat {
    |col| - |Tiles(col)|
  }

  /** No tile sits above an empty cell: the tiles form one block at the
      bottom of the column. */
  predicate Settled(col: seq<Cell>) {
    forall a, b :: 0 <= a < b < |col| && col[a].Tile? ==> col[b].Tile?
  }

  lemma {:induction false} TilesAppend(x: seq<Cell>, y: seq<Cell>)
    ensures Tiles(x + y) == Tiles(x) + Tiles(y)
    decreases |x|
  {
    if |x| == 0 {
      assert x + y == y;
    } else {
      assert (x + y)[1..] == x[1..] + y;
      TilesAppend(x[1..], y);
    }
  }

  lemma {:induction false} TilesOfEmpties(x: seq<Cell>)
    requires forall k :: 0 <= k < |x| ==> x[k].Empty?
    ensures Tiles(x) == []
    decreases |x|
  {
    if |x| > 0 {
      TilesOfEmpties(x[1..]);
    }
  }

  lemma {:induction false} TilesMembers(x: seq<Cell>)
    ensures forall k :: 0 <= k < |x| && x[k].Tile? ==> x[k] in Tiles(x)
    ensures forall y :: y in Tiles(x) ==> y in x
    decreases |x|
  {
    if |x| > 0 {
      TilesMembers(x[1..]);
      forall k | 0 <= k < |x| && x[k].Tile?
        ensures x[k] in Tiles(x)
      {
        if k > 0 {
          assert x[k] == x[1..][k - 1];
        }
      }
    }
  }

  /** A column has an empty cell exactly when its empty count is positive. */
  lemma {:induction false} EmptyCountPositive(col: seq<Cell>)
    ensures EmptyCount(col) > 0 <==> exists k :: 0 <= k < |col| && col[k].Empty?
    decreases |col|
  {
    if |col| > 0 {
      EmptyCountPositive(col[1..]);
      if exists k :: 0 <= k < |col[1..]| && col[1..][k].Empty? {
        var k :| 0 <= k < |col[1..]| && col[1..][k].Empty?;
        assert col[k + 1].Empty?;
      }
      if exists k :: 0 <= k < |col| && col[k].Empty? {
        var k :| 0 <= k < |col| && col[k].Empty?;
        if k > 0 {
          assert col[1..][k - 1].Empty?;
        }
      }
    }
  }

  /** The nearest tile at or above row `r`, or -1 when rows 0..r are all
      empty. */
  function NearestTileAbove(col: seq<Cell>, r: int): (a: int)
    requires -1 <= r < |col|
    ensures -1 <= a <= r
    ensures a >= 0 ==> col[a].Tile?
    ensures forall k :: a < k <= r ==> col[k].Empty?
    decreases r + 1
  {
    if r < 0 then -1
    else if col[r].Tile? then r
    else NearestTileAbove(col, r - 1)
  }

  /** Some empty cell at row `row` or above has a tile above it. */
  predicate GapAt(col: seq<Cell>, row: nat)
    requires row < |col|
  {
    exists e, a :: 0 <= a < e <= row && col[e].Empty? && col[a].Tile?
  }

  /** Every cell below row `row` holds a tile as soon as any cell above it
      does: rows below `row` are already compacted, and if any of them is
      empty then so is everything from row 0 down to `row`. */
  predicate PreparedBelow(col: seq<Cell>, row: nat) {
    forall a, b :: 0 <= a < b < |col| && row < b && col[a].Tile? ==> col[b].Tile?
  }

  /** Swapping an empty cell with the nearest tile above it keeps the tiles
      and their order. */
  lemma SwapDownKeepsTiles(col: seq<Cell>, a: nat, row: nat)
    requires a < row < |col| && col[row].Empty? && col[a].Tile?
    requires forall k :: a < k < row ==> col[k].Empty?
    ensures Tiles(col[row := col[a]][a := col[row]]) == Tiles(col)
  {
    var s := col[row := col[a]][a := col[row]];
    var mid := col[a + 1..row];
    assert col == col[..a] + ([col[a]] + mid) + ([col[row]] + col[row + 1..]);
    assert s == col[..a] + ([col[row]] + mid) + ([col[a]] + col[row + 1..]);
    TilesOfEmpties(mid);
    TilesOfEmpties([col[row]]);
    TilesOfEmpties([col[row]] + mid);
    TilesAppend([col[a]], mid);
    TilesAppend([col[row]], col[row + 1..]);
    TilesAppend([col[a]], col[row + 1..]);
    TilesAppend(col[..a] + ([col[a]] + mid), [col[row]] + col[row + 1..]);
    TilesAppend(col[..a], [col[a]] + mid);
    TilesAppend(col[..a] + ([col[row]] + mid), [col[a]] + col[row + 1..]);
    TilesAppend(col[..a], [col[row]] + mid);
  }

  lemma SwapDownPrepares(col: seq<Cell>, a: nat, row: nat)
    requires a < row < |col| && col[row].Empty? && col[a].Tile?
    requires forall k :: a < k < row ==> col[k].Empty?
    ensures PreparedBelow(col, row) ==> PreparedBelow(col[row := col[a]][a := col[row]], row - 1)
  {
  }

  /** Rows `row` down to 1 of the source's gravity loop for one column:
      an empty cell takes the nearest tile above it (the two cells swap);
      the result also says whether any swap happened. */
  function SinkColumn(col: seq<Cell>, row: nat): (r: (seq<Cell>, bool))
    requires row < |col|
    ensures |r.0| == |col|
    ensures Tiles(r.0) == Tiles(col)
    ensures r.0[row + 1..] == col[row + 1..]
    ensures r.1 <==> GapAt(col, row)
    ensures !r.1 ==> r.0 == col
    ensures PreparedBelow(col, row) ==> Settled(r.0)
    decreases row
  {
    if row == 0 then
      (col, false)
    else if col[row].Empty? then
      var a := NearestTileAbove(col, row - 1);
      if a >= 0 then
        var swapped := col[row := col[a]][a := col[row]];
        SwapDownKeepsTiles(col, a, row);
        SwapDownPrepares(col, a, row);
        var (res, _) := SinkColumn(swapped, row - 1);
        assert res[row + 1..] == swapped[row..][1..];
        (res, true)
      else
        assert GapAt(col, row) <==> GapAt(col, row - 1);
        SinkColumn(col, row - 1)
    else
      assert GapAt(col, row) <==> GapAt(col, row - 1);
      SinkColumn(col, row - 1)
  }

  /** A column is unsettled exactly when some empty cell has a tile above it. */
  lemma GapIffUnsettled(col: seq<Cell>)
    requires |col| > 0
    ensures GapAt(col, |col| - 1) <==> !Settled(col)
  {
  }

  /** In a settled column the top cell is empty exactly when the column has
      an empty cell. */
  lemma SettledTopEmpty(col: seq<Cell>)
    requires |col| > 0 && Settled(col)
    ensures col[0].Empty? <==> EmptyCount(col) > 0
  {
    EmptyCountPositive(col);
  }

  /** What one gravity pass did to one column. */
  datatype ColumnStep = ColumnStep(col: seq<Cell>, moved: bool, refilled: bool)

  /** One gravity pass on one column: compact it, then give the top cell
      the colour `newKind` if it is still empty. */
  function ColumnPass(col: seq<Cell>, newKind: nat): (r: ColumnStep)
    requires |col| > 0
    ensures |r.col| == |col|
    ensures r.moved <==> !Settled(col)
    ensures r.refilled <==> EmptyCount(col) > 0
    ensures r.refilled ==> r.col[0] == Tile(newKind)
    ensures Tiles(r.col) == (if r.refilled then [Tile(newKind)] else []) + Tiles(col)
    ensures r.col[0].Tile? && Settled(r.col[1..])
    ensures EmptyCount(r.col) == if EmptyCount(col) > 0 then EmptyCount(col) - 1 else 0
    ensures !r.moved ==> r.col[1..] == col[1..]
  {
    var (sunk, moved) := SinkColumn(col, |col| - 1);
    GapIffUnsettled(col);
    SettledTopEmpty(sunk);
    assert Tiles(sunk) == (if sunk[0].Tile? then [sunk[0]] else []) + Tiles(sunk[1..]);
    if sunk[0].Empty? then
      var filled := sunk[0 := Tile(newKind)];
      assert filled[1..] == sunk[1..];
      ColumnStep(filled, moved, true)
    else
      ColumnStep(sunk, moved, false)
  }

  /** Every tile of a column after a pass is the newKind tile or was already
      in the column. */
  lemma ColumnPassTileOrigin(col: seq<Cell>, newKind: nat)
    requires |col| > 0
    ensures forall k :: 0 <= k < |col| && ColumnPass(col, newKind).col[k].Tile? ==>
      ColumnPass(col, newKind).col[k] == Tile(newKind) || ColumnPass(col, newKind).col[k] in col
  {
    var r := ColumnPass(col, newKind);
    TilesMembers(r.col);
    TilesMembers(col);
  }

  /** The random source of the refills: `draw(n, c)` is the colour the top
      cell of column `c` receives if it is refilled in gravity pass `n`. */
  type Draw = (nat, nat) -> nat

  /** Every draw is a colour index of the palette. */
  ghost predicate ValidDraw(draw: Draw) {
    forall n, c :: draw(n, c) < Palette
  }

  /** Every tile on the board has a colour index of the palette. */
  predicate InPalette(types: seq<Cell>) {
    forall i :: 0 <= i < |types| && types[i].Tile? ==> types[i].kind < Palette
  }

  /** The number of empty cells of each column, left to right. */
  function ColumnEmpties(types: seq<Cell>): (r: seq<nat>)
    requires |types| == CellCount
    ensures |r| == GridSize
  {
    seq(GridSize, c requires 0 <= c < GridSize => EmptyCount(Column(types, c)))
  }

  /** The sum of `xs[c..]`. */
  function SumFrom(xs: seq<nat>, c: nat): nat
    requires c <= |xs|
    decreases |xs| - c
  {
    if c == |xs| then 0 else xs[c] + SumFrom(xs, c + 1)
  }

  /** Number of empty cells on the board, counted column by column. */
  function EmptyCells(types: seq<Cell>): nat
    requires |types| == CellCount
  {
    SumFrom(ColumnEmpties(types), 0)
  }

  /** What one gravity pass did to the board. */
  datatype PassResult = PassResult(board: Board, moved: bool)

  /** The column pass of column `c` in gravity pass `n`. */
  function ColumnPassOf(types: seq<Cell>, draw: Draw, n: nat, c: nat): ColumnStep
    requires |types| == CellCount && c < GridSize
  {
    ColumnPass(Column(types, c), draw(n, c))
  }

  /** Cell `i` after gravity pass `n`. */
  function CellAfterPass(types: seq<Cell>, draw: Draw, n: nat, i: nat): Cell
    requires |types| == CellCount && i < CellCount
  {
    RowColInverse(i);
    ColumnPassOf(types, draw, n, Col(i)).col[Row(i)]
  }

  /** The flag of cell `i` after gravity pass `n`: a refill of a top cell
      clears its flag, nothing else changes a flag. */
  function FlagAfterPass(b: Board, draw: Draw, n: nat, i: nat): bool
    requires b.Valid() && i < CellCount
  {
    RowColInverse(i);
    b.matched[i] && !(Row(i) == 0 && ColumnPassOf(b.types, draw, n, Col(i)).refilled)
  }

  /** Whether some column pass of gravity pass `n` swapped a tile. */
  predicate AnyMoved(types: seq<Cell>, draw: Draw, n: nat)
    requires |types| == CellCount
  {
    exists c :: 0 <= c < GridSize && ColumnPassOf(types, draw, n, c).moved
  }

  /** One gravity pass (one run of the source's column loop): every column
      is compacted and, if its top cell is then empty, refilled with
      `draw(n, c)`; the refill clears the flag of that top cell only.
      `moved` records whether any swap happened in any column. */
  function GravityPass(b: Board, draw: Draw, n: nat): (r: PassResult)
    requires b.Valid()
    ensures r.board.Valid()
    ensures forall c :: 0 <= c < GridSize ==>
      Column(r.board.types, c) == ColumnPass(Column(b.types, c), draw(n, c)).col
    ensures r.moved <==> exists c :: 0 <= c < GridSize && !Settled(Column(b.types, c))
  {
    var types := seq(CellCount, i requires 0 <= i < CellCount => CellAfterPass(b.types, draw, n, i));
    var matched := seq(CellCount, i requires 0 <= i < CellCount => FlagAfterPass(b, draw, n, i));
    PassColumns(b.types, types, draw, n);
    MovedIffUnsettled(b.types, draw, n);
    PassResult(Board(types, matched), AnyMoved(b.types, draw, n))
  }

  /** A pass clears the flag of a top cell it refills and changes no other
      flag; a refill happens exactly when the column had an empty cell. */
  lemma GravityPassFlags(b: Board, draw: Draw, n: nat, i: nat)
    requires b.Valid() && i < CellCount
    ensures GravityPass(b, draw, n).board.matched[i]
      == (b.matched[i] && !(Row(i) == 0 && EmptyCount(Column(b.types, Col(i))) > 0))
  {
    RowColInverse(i);
    assert GravityPass(b, draw, n).board.matched[i] == FlagAfterPass(b, draw, n, i);
  }

  lemma MovedIffUnsettled(types: seq<Cell>, draw: Draw, n: nat)
    requires |types| == CellCount
    ensures AnyMoved(types, draw, n) <==> exists c :: 0 <= c < GridSize && !Settled(Column(types, c))
  {
    if AnyMoved(types, draw, n) {
      var c :| 0 <= c < GridSize && ColumnPassOf(types, draw, n, c).moved;
      assert !Settled(Column(types, c));
    }
    if exists c :: 0 <= c < GridSize && !Settled(Column(types, c)) {
      var c :| 0 <= c < GridSize && !Settled(Column(types, c));
      assert ColumnPassOf(types, draw, n, c).moved;
    }
  }

  /** Reading back the columns of a board built cell by cell from per-column
      passes gives those passes' columns. */
  lemma PassColumns(before: seq<Cell>, after: seq<Cell>, draw: Draw, n: nat)
    requires |before| == CellCount && |after| == CellCount
    requires forall i :: 0 <= i < CellCount ==> after[i] == CellAfterPass(before, draw, n, i)
    ensures forall c :: 0 <= c < GridSize ==>
      Column(after, c) == ColumnPass(Column(before, c), draw(n, c)).col
  {
    forall c | 0 <= c < GridSize
      ensures Column(after, c) == ColumnPass(Column(before, c), draw(n, c)).col
    {
      forall r | 0 <= r < GridSize
        ensures Column(after, c)[r] == ColumnPass(Column(before, c), draw(n, c)).col[r]
      {
        AtInverse(r, c);
        assert after[At(r, c)] == CellAfterPass(before, draw, n, At(r, c));
      }
    }
  }

  /** Smaller terms give a sum no larger; a strictly smaller term `xs[w]`
      gives a strictly smaller sum. */
  lemma {:induction false} SumShrinks(xs: seq<nat>, ys: seq<nat>, c: nat, w: int)
    requires |xs| == |ys| && c <= |xs|
    requires forall k :: c <= k < |xs| ==> ys[k] <= xs[k]
    ensures SumFrom(ys, c) <= SumFrom(xs, c)
    ensures c <= w < |xs| && ys[w] < xs[w] ==> SumFrom(ys, c) < SumFrom(xs, c)
    decreases |xs| - c
  {
    if c < |xs| {
      SumShrinks(xs, ys, c + 1, w);
    }
  }

  /** A board with no more empty cells than another in any column has no
      more empty cells in all, and strictly fewer if column `w` has. */
  lemma FewerEmpties(t1: seq<Cell>, t2: seq<Cell>, w: int)
    requires |t1| == CellCount && |t2| == CellCount
    requires forall c :: 0 <= c < GridSize ==> EmptyCount(Column(t2, c)) <= EmptyCount(Column(t1, c))
    ensures EmptyCells(t2) <= EmptyCells(t1)
    ensures 0 <= w < GridSize && EmptyCount(Column(t2, w)) < EmptyCount(Column(t1, w))
      ==> EmptyCells(t2) < EmptyCells(t1)
  {
    SumShrinks(ColumnEmpties(t1), ColumnEmpties(t2), 0, w);
  }

  /** An unsettled column has an empty cell. */
  lemma UnsettledHasEmpty(col: seq<Cell>)
    requires !Settled(col)
    ensures EmptyCount(col) > 0
  {
    EmptyCountPositive(col);
  }

  lemma PassColumnCounts(b: Board, draw: Draw, n: nat)
    requires b.Valid()
    ensures forall c :: 0 <= c < GridSize ==>
      EmptyCount(Column(GravityPass(b, draw, n).board.types, c)) ==
        if EmptyCount(Column(b.types, c)) > 0 then EmptyCount(Column(b.types, c)) - 1 else 0
  {
    var r := GravityPass(b, draw, n);
    forall c | 0 <= c < GridSize
      ensures EmptyCount(Column(r.board.types, c)) ==
        if EmptyCount(Column(b.types, c)) > 0 then EmptyCount(Column(b.types, c)) - 1 else 0
    {
      var step := ColumnPass(Column(b.types, c), draw(n, c));
      assert Column(r.board.types, c) == step.col;
    }
  }

  /** A pass never adds an empty cell, and a pass that swapped a tile
      removes at least one: this bounds the number of passes. */
  lemma GravityPassShrinks(b: Board, draw: Draw, n: nat)
    requires b.Valid()
    ensures EmptyCells(GravityPass(b, draw, n).board.types) <= EmptyCells(b.types)
    ensures GravityPass(b, draw, n).moved ==> EmptyCells(GravityPass(b, draw, n).board.types) < EmptyCells(b.types)
  {
    var r := GravityPass(b, draw, n);
    PassColumnCounts(b, draw, n);
    if r.moved {
      var c :| 0 <= c < GridSize && !Settled(Column(b.types, c));
      UnsettledHasEmpty(Column(b.types, c));
      FewerEmpties(b.types, r.board.types, c);
    } else {
      FewerEmpties(b.types, r.board.types, -1);
    }
  }

  /** A pass only places colours drawn from the palette. */
  lemma GravityPassInPalette(b: Board, draw: Draw, n: nat)
    requires b.Valid()
    ensures ValidDraw(draw) && InPalette(b.types) ==> InPalette(GravityPass(b, draw, n).board.types)
  {
    var r := GravityPass(b, draw, n);
    if ValidDraw(draw) && InPalette(b.types) {
      forall i | 0 <= i < CellCount && r.board.types[i].Tile?
        ensures r.board.types[i].kind < Palette
      {
        RowColInverse(i);
        assert r.board.types[i] == Column(r.board.types, Col(i))[Row(i)];
        ColumnInPalette(b.types, Col(i), draw(n, Col(i)));
      }
    }
  }

  /** A column pass on a board whose colours are in the palette, with a
      drawn colour in the palette, yields colours in the palette. */
  lemma ColumnInPalette(types: seq<Cell>, c: nat, newKind: nat)
    requires |types| == CellCount && c < GridSize
    requires InPalette(types) && newKind < Palette
    ensures forall k :: 0 <= k < GridSize && ColumnPass(Column(types, c), newKind).col[k].Tile? ==>
      ColumnPass(Column(types, c), newKind).col[k].kind < Palette
  {
    var col := Column(types, c);
    var out := ColumnPass(col, newKind).col;
    ColumnPassTileOrigin(col, newKind);
    forall k | 0 <= k < GridSize && out[k].Tile?
      ensures out[k].kind < Palette
    {
      if out[k] != Tile(newKind) {
        var m :| 0 <= m < |col| && col[m] == out[k];
        AtInverse(m, c);
      }
    }
  }

  /** `x` is what remains of `y` after dropping a prefix. */
  predicate IsSuffix<T(==)>(x: seq<T>, y: seq<T>) {
    |x| <= |y| && y[|y| - |x|..] == x
  }

  lemma SuffixTransitive<T>(x: seq<T>, y: seq<T>, z: seq<T>)
    requires IsSuffix(x, y) && IsSuffix(y, z)
    ensures IsSuffix(x, z)
  {
    assert z[|z| - |x|..] == z[|z| - |y|..][|y| - |x|..];
  }

  /** What gravity keeps from `before` to `after`: in every column the old
      tiles, in order, at the bottom of the new ones; no new flags; flags
      off the top row untouched; no more empty cells. */
  predicate Descends(before: Board, after: Board)
    requires before.Valid() && after.Valid()
  {
    && (forall c :: 0 <= c < GridSize ==> IsSuffix(Tiles(Column(before.types, c)), Tiles(Column(after.types, c))))
    && (forall i :: 0 <= i < CellCount && after.matched[i] ==> before.matched[i])
    && (forall i :: 0 <= i < CellCount && Row(i) > 0 ==> after.matched[i] == before.matched[i])
    && EmptyCells(after.types) <= EmptyCells(before.types)
  }

  lemma DescendsTransitive(a: Board, b: Board, c: Board)
    requires a.Valid() && b.Valid() && c.Valid()
    requires Descends(a, b) && Descends(b, c)
    ensures Descends(a, c)
  {
    forall k | 0 <= k < GridSize
      ensures IsSuffix(Tiles(Column(a.types, k)), Tiles(Column(c.types, k)))
    {
      SuffixTransitive(Tiles(Column(a.types, k)), Tiles(Column(b.types, k)), Tiles(Column(c.types, k)));
    }
  }

  lemma PassTilesSuffix(b: Board, draw: Draw, n: nat)
    requires b.Valid()
    ensures forall c :: 0 <= c < GridSize ==>
      IsSuffix(Tiles(Column(b.types, c)), Tiles(Column(GravityPass(b, draw, n).board.types, c)))
  {
    var r := GravityPass(b, draw, n);
    forall c | 0 <= c < GridSize
      ensures IsSuffix(Tiles(Column(b.types, c)), Tiles(Column(r.board.types, c)))
    {
      var y := Tiles(Column(b.types, c));
      var z := Tiles(Column(r.board.types, c));
      assert Column(r.board.types, c) == ColumnPass(Column(b.types, c), draw(n, c)).col;
      assert z[|z| - |y|..] == y;
    }
  }

  lemma PassFlags(b: Board, draw: Draw, n: nat)
    requires b.Valid()
    ensures forall i :: 0 <= i < CellCount ==>
      (GravityPass(b, draw, n).board.matched[i] == (b.matched[i] && !(Row(i) == 0 && EmptyCount(Column(b.types, Col(i))) > 0)))
  {
    forall i | 0 <= i < CellCount
      ensures GravityPass(b, draw, n).board.matched[i]
        == (b.matched[i] && !(Row(i) == 0 && EmptyCount(Column(b.types, Col(i))) > 0))
    {
      GravityPassFlags(b, draw, n, i);
    }
  }

  /** One pass keeps what gravity keeps. */
  lemma PassDescends(b: Board, draw: Draw, n: nat)
    requires b.Valid()
    ensures Descends(b, GravityPass(b, draw, n).board)
  {
    PassTilesSuffix(b, draw, n);
    PassFlags(b, draw, n);
    GravityPassShrinks(b, draw, n);
  }

  /** The outcome of a gravity cascade: the board and the index of the next
      pass, so that later passes take fresh draws. */
  datatype GravityResult = GravityResult(board: Board, nextPass: nat)

  /** The source's gravity loop: passes `n`, `n + 1`, ... until a pass
      swaps nothing. It ends because each pass that swapped something
      lowers the number of empty cells. Afterwards every top cell holds a
      tile and the rest of every column is settled, but a column that was
      settled before the last pass may still have holes below its top. */
  function ApplyGravity(b: Board, draw: Draw, n: nat): (r: GravityResult)
    requires b.Valid()
    ensures r.board.Valid() && r.nextPass > n
    ensures forall c :: 0 <= c < GridSize ==>
      Column(r.board.types, c)[0].Tile? && Settled(Column(r.board.types, c)[1..])
    ensures Descends(b, r.board)
    ensures ValidDraw(draw) && InPalette(b.types) ==> InPalette(r.board.types)
    decreases EmptyCells(b.types)
  {
    var p := GravityPass(b, draw, n);
    GravityPassShrinks(b, draw, n);
    PassDescends(b, draw, n);
    GravityPassInPalette(b, draw, n);
    if p.moved then
      var r := ApplyGravity(p.board, draw, n + 1);
      DescendsTransitive(b, p.board, r.board);
      r
    else
      GravityResult(p.board, n + 1)
  }

  /** When every column is already settled, gravity makes exactly one pass:
      it refills each top cell that is empty and nothing else, so a column
      with two or more empty cells keeps holes just below its new top tile. */
  lemma SettledBoardKeepsHoles(b: Board, draw: Draw, n: nat)
    requires b.Valid()
    requires forall c :: 0 <= c < GridSize ==> Settled(Column(b.types, c))
    ensures ApplyGravity(b, draw, n).nextPass == n + 1
    ensures forall c :: 0 <= c < GridSize ==>
      Column(ApplyGravity(b, draw, n).board.types, c)[1..] == Column(b.types, c)[1..]
    ensures forall c :: 0 <= c < GridSize ==>
      EmptyCount(Column(ApplyGravity(b, draw, n).board.types, c))
        == if EmptyCount(Column(b.types, c)) > 0 then EmptyCount(Column(b.types, c)) - 1 else 0
  {
    var p := GravityPass(b, draw, n);
    assert !p.moved;
    assert ApplyGravity(b, draw, n).board == p.board;
    forall c | 0 <= c < GridSize
      ensures Column(p.board.types, c)[1..] == Column(b.types, c)[1..]
    {
      assert Column(p.board.types, c) == ColumnPass(Column(b.types, c), draw(n, c)).col;
    }
    PassColumnCounts(b, draw, n);
  }

  lemma {:induction false} FullColumnTiles(col: seq<Cell>)
    requires forall k :: 0 <= k < |col| ==> col[k].Tile?
    ensures Tiles(col) == col
    decreases |col|
  {
    if |col| > 0 {
      FullColumnTiles(col[1..]);
    }
  }

  /** A pass leaves a column without empty cells as it is. */
  lemma FullColumnPass(col: seq<Cell>, newKind: nat)
    requires |col| > 0 && forall k :: 0 <= k < |col| ==> col[k].Tile?
    ensures ColumnPass(col, newKind) == ColumnStep(col, false, false)
  {
    var r := ColumnPass(col, newKind);
    FullColumnTiles(col);
    assert Tiles(r.col) == [r.col[0]] + Tiles(r.col[1..]);
    assert r.col == [r.col[0]] + r.col[1..];
    assert col == [col[0]] + col[1..];
  }

  /** Boards with the same columns are the same board. */
  lemma ColumnsDetermineBoard(t1: seq<Cell>, t2: seq<Cell>)
    requires |t1| == CellCount && |t2| == CellCount
    requires forall c :: 0 <= c < GridSize ==> Column(t1, c) == Column(t2, c)
    ensures t1 == t2
  {
    forall i | 0 <= i < CellCount
      ensures t1[i] == t2[i]
    {
      RowColInverse(i);
      assert Column(t1, Col(i))[Row(i)] == Column(t2, Col(i))[Row(i)];
    }
  }

  /** Gravity on a board with no empty cell changes nothing, flags
      included: it makes one pass that neither swaps nor refills. */
  lemma FullBoardUnchanged(b: Board, draw: Draw, n: nat)
    requires b.Valid()
    requires forall i :: 0 <= i < CellCount ==> b.types[i].Tile?
    ensures ApplyGravity(b, draw, n) == GravityResult(b, n + 1)
  {
    var p := GravityPass(b, draw, n);
    forall c | 0 <= c < GridSize
      ensures Column(p.board.types, c) == Column(b.types, c)
      ensures Settled(Column(b.types, c)) && EmptyCount(Column(b.types, c)) == 0
    {
      var col := Column(b.types, c);
      forall k | 0 <= k < GridSize
        ensures col[k].Tile?
      {
        AtInverse(k, c);
      }
      FullColumnPass(col, draw(n, c));
    }
    assert !p.moved;
    ColumnsDetermineBoard(p.board.types, b.types);
    PassFlags(b, draw, n);
    assert p.board.matched == b.matched;
  }
}

=== FILE: grid.dfy ===
/** The board: an 8 x 8 grid of cells stored row-major, the adjacency test
    used to validate a drag, and the tile swap. */
module Grid {

  /** Side length of the square board. */
  const GridSize: nat := 8

  /** Number of cells on the board. */
  const CellCount: nat := 64

  /** Number of tile colours; a colour index is drawn from [0, Palette). */
  const Palette: nat := 5

  /** A cell either holds a tile of some colour index or is empty
      (the source's empty-string type). */
  datatype Cell = Empty | Tile(kind: nat)

  /** The board: the type of every cell and the per-position `matched`
      flag. The flag belongs to the position, not to the tile on it. */
  datatype Board = Board(types: seq<Cell>, matched: seq<bool>)
  {
    predicate Valid() {
      |types| == CellCount && |matched| == CellCount
    }
  }

  function Row(i: nat): nat { i / GridSize }

  function Col(i: nat): nat { i % GridSize }

  /** The index of the cell at row `r`, column `c`. */
  function At(r: nat, c: nat): nat { r * GridSize + c }

  lemma AtInverse(r: nat, c: nat)
    requires c < GridSize
    ensures Row(At(r, c)) == r && Col(At(r, c)) == c
    ensures r < GridSize ==> At(r, c) < CellCount
  {
  }

  lemma RowColInverse(i: nat)
    ensures At(Row(i), Col(i)) == i && Col(i) < GridSize
    ensures i < CellCount ==> Row(i) < GridSize
  {
  }

  function Distance(x: nat, y: nat): nat {
    if x <= y then y - x else x - y
  }

  /** Two cells are neighbours when their row distance plus their column
      distance is exactly one. */
  predicate IsNeighbor(a: nat, b: nat) {
    Distance(Row(a), Row(b)) + Distance(Col(a), Col(b)) == 1
  }

  /** Adjacency in index terms: one step right within a row, one step left
      within a row, or one full row up or down. */
  predicate AdjacentIndices(a: nat, b: nat) {
    || (b == a + 1 && Col(a) < GridSize - 1)
    || (a == b + 1 && Col(b) < GridSize - 1)
    || b == a + GridSize
    || a == b + GridSize
  }

  lemma {:induction false} NeighborIffAdjacent(a: nat, b: nat)
    ensures IsNeighbor(a, b) <==> AdjacentIndices(a, b)
  {
    RowColInverse(a);
    RowColInverse(b);
  }

  lemma NeighborSymmetricIrreflexive(a: nat, b: nat)
    ensures IsNeighbor(a, b) <==> IsNeighbor(b, a)
    ensures !IsNeighbor(a, a)
  {
  }

  /** The last cell of a row is never a neighbour of the first cell of the
      next row, although their indices differ by one. */
  lemma RowEndNotNeighborOfNextRowStart(r: nat)
    ensures !IsNeighbor(At(r, GridSize - 1), At(r + 1, 0))
  {
    NeighborIffAdjacent(At(r, GridSize - 1), At(r + 1, 0));
    AtInverse(r, GridSize - 1);
  }

  /** Exchanges the types of cells `i` and `j`; the matched flags stay
      where they are. */
  function SwapTiles(b: Board, i: nat, j: nat): (r: Board)
    requires b.Valid() && i < CellCount && j < CellCount
    ensures r.Valid()
    ensures r.types[i] == b.types[j] && r.types[j] == b.types[i]
    ensures forall k :: 0 <= k < CellCount && k != i && k != j ==> r.types[k] == b.types[k]
    ensures r.matched == b.matched
    ensures multiset(r.types) == multiset(b.types)
  {
    b.(types := b.types[i := b.types[j]][j := b.types[i]])
  }

  lemma SwapTwiceRestores(b: Board, i: nat, j: nat)
    requires b.Valid() && i < CellCount && j < CellCount
    ensures SwapTiles(SwapTiles(b, i, j), i, j) == b
  {
    var r := SwapTiles(SwapTiles(b, i, j), i, j);
    assert r.types == b.types;
  }
}

=== FILE: matching.dfy ===
/** Run detection from one cell: the maximal run of one colour through a
    cell along its row or column, and its link to lines of three. */
module Matching {
  import opened Grid

  datatype Direction = Horizontal | Vertical

  /** The line a cell lies on: its row for horizontal runs, its column for
      vertical ones. */
  function LineOf(d: Direction, i: nat): nat {
    if d == Horizontal then Row(i) else Col(i)
  }

  /** The position of a cell along its line. */
  function PosOf(d: Direction, i: nat): nat {
    if d == Horizontal then Col(i) else Row(i)
  }

  /** The index of the cell at position `pos` of line `line`. */
  function LineIndex(d: Direction, line: nat, pos: nat): nat {
    if d == Horizontal then At(line, pos) else At(pos, line)
  }

  lemma LineIndexInverse(d: Direction, line: nat, pos: nat)
    requires line < GridSize && pos < GridSize
    ensures LineIndex(d, line, pos) < CellCount
    ensures LineOf(d, LineIndex(d, line, pos)) == line
    ensures PosOf(d, LineIndex(d, line, pos)) == pos
  {
    AtInverse(line, pos);
    AtInverse(pos, line);
  }

  lemma LineOfInverse(d: Direction, i: nat)
    requires i < CellCount
    ensures LineOf(d, i) < GridSize && PosOf(d, i) < GridSize
    ensures LineIndex(d, LineOf(d, i), PosOf(d, i)) == i
  {
    RowColInverse(i);
  }

  /** The cells at positions p, p-1, ... of a line, as long as they have
      type `t`; the walk stops at the first mismatch or at the edge. */
  function Backward(types: seq<Cell>, d: Direction, line: nat, p: int, t: Cell): (r: seq<nat>)
    requires |types| == CellCount && line < GridSize && -1 <= p < GridSize
    ensures |r| <= p + 1
    ensures forall k :: 0 <= k < |r| ==> r[k] == LineIndex(d, line, p - k) && types[r[k]] == t
    ensures |r| == p + 1 || types[LineIndex(d, line, p - |r|)] != t
    decreases p + 1
  {
    if p < 0 then []
    else
      LineIndexInverse(d, line, p);
      var idx := LineIndex(d, line, p);
      if types[idx] == t then [idx] + Backward(types, d, line, p - 1, t) else []
  }

  /** The cells at positions p, p+1, ... of a line, as long as they have
      type `t`; the walk stops at the first mismatch or at the edge. */
  function Forward(types: seq<Cell>, d: Direction, line: nat, p: nat, t: Cell): (r: seq<nat>)
    requires |types| == CellCount && line < GridSize && p <= GridSize
    ensures p + |r| <= GridSize
    ensures forall k :: 0 <= k < |r| ==> r[k] == LineIndex(d, line, p + k) && types[r[k]] == t
    ensures p + |r| == GridSize || types[LineIndex(d, line, p + |r|)] != t
    decreases GridSize - p
  {
    if p == GridSize then []
    else
      LineIndexInverse(d, line, p);
      var idx := LineIndex(d, line, p);
      if types[idx] == t then [idx] + Forward(types, d, line, p + 1, t) else []
  }

  /** The run of cells of type `t` through cell `i` along direction `d`:
      `i` itself, then the cells before it, then the cells after it. */
  function FindMatches(types: seq<Cell>, i: nat, t: Cell, d: Direction): (r: seq<nat>)
    requires |types| == CellCount && i < CellCount
    ensures 1 <= |r| <= GridSize && r[0] == i
    ensures forall k :: 0 <= k < |r| ==> r[k] < CellCount && LineOf(d, r[k]) == LineOf(d, i)
    ensures forall k :: 1 <= k < |r| ==> types[r[k]] == t
    ensures forall a, b :: 0 <= a < b < |r| ==> r[a] != r[b]
  {
    LineOfInverse(d, i);
    var line := LineOf(d, i);
    var pos := PosOf(d, i);
    var before := Backward(types, d, line, pos as int - 1, t);
    var after := Forward(types, d, line, pos + 1, t);
    var r := [i] + before + after;
    forall k | 0 <= k < |r|
      ensures r[k] < CellCount && LineOf(d, r[k]) == line && (k > 0 ==> types[r[k]] == t)
    {
      RunPositionAt(types, d, line, pos, t, before, after, k);
    }
    forall a, b | 0 <= a < b < |r|
      ensures r[a] != r[b]
    {
      RunPositionAt(types, d, line, pos, t, before, after, a);
      RunPositionAt(types, d, line, pos, t, before, after, b);
      LineIndexInverse(d, line, Offset(pos, |before|, a));
      LineIndexInverse(d, line, Offset(pos, |before|, b));
    }
    r
  }

  /** Position along the line of the k-th entry of a run whose origin is at
      `pos` and which has `nb` entries before the origin. */
  function Offset(pos: nat, nb: nat, k: nat): int {
    if k == 0 then pos else if k <= nb then pos - k else pos + k - nb
  }

  /** Entry `k` of a run with `before` entries before the origin at `pos`
      and `after` entries after it lies at position `Offset(pos, |before|, k)`
      of the line. */
  lemma RunPositionAt(types: seq<Cell>, d: Direction, line: nat, pos: nat, t: Cell,
                      before: seq<nat>, after: seq<nat>, k: nat)
    requires |types| == CellCount && line < GridSize && pos < GridSize
    requires before == Backward(types, d, line, pos as int - 1, t)
    requires after == Forward(types, d, line, pos + 1, t)
    requires k < 1 + |before| + |after|
    ensures pos - |before| <= Offset(pos, |before|, k) <= pos + |after|
    ensures 0 <= Offset(pos, |before|, k) < GridSize
    ensures ([LineIndex(d, line, pos)] + before + after)[k] == LineIndex(d, line, Offset(pos, |before|, k))
    ensures LineIndex(d, line, Offset(pos, |before|, k)) < CellCount
    ensures LineOf(d, LineIndex(d, line, Offset(pos, |before|, k))) == line
    ensures k > 0 ==> types[LineIndex(d, line, Offset(pos, |before|, k))] == t
  {
    var r := [LineIndex(d, line, pos)] + before + after;
    if k == 0 {
    } else if k <= |before| {
      assert r[k] == before[k - 1];
    } else {
      assert r[k] == after[k - 1 - |before|];
    }
    LineIndexInverse(d, line, Offset(pos, |before|, k));
  }

  /** The cell at position `pos` of line `line`. */
  function CellOn(types: seq<Cell>, d: Direction, line: nat, pos: nat): Cell
    requires |types| == CellCount && line < GridSize && pos < GridSize
  {
    LineIndexInverse(d, line, pos);
    types[LineIndex(d, line, pos)]
  }

  /** Positions `lo..hi` of the line through `i` form the maximal run of
      type `t` through `i`: every cell in it other than `i` has type `t`,
      and the cells just outside it (if on the board) do not. */
  predicate MaximalRun(types: seq<Cell>, d: Direction, i: nat, t: Cell, lo: nat, hi: nat)
    requires |types| == CellCount && i < CellCount
  {
    LineOfInverse(d, i);
    var line := LineOf(d, i);
    var p := PosOf(d, i);
    && lo <= p <= hi < GridSize
    && (forall q :: lo <= q <= hi && q != p ==> CellOn(types, d, line, q) == t)
    && (lo == 0 || CellOn(types, d, line, lo - 1) != t)
    && (hi == GridSize - 1 || CellOn(types, d, line, hi + 1) != t)
  }

  /** First position of the run through `i`. */
  function RunStart(types: seq<Cell>, i: nat, t: Cell, d: Direction): nat
    requires |types| == CellCount && i < CellCount
  {
    LineOfInverse(d, i);
    PosOf(d, i) - |Backward(types, d, LineOf(d, i), PosOf(d, i) - 1, t)|
  }

  /** Last position of the run through `i`. */
  function RunEnd(types: seq<Cell>, i: nat, t: Cell, d: Direction): nat
    requires |types| == CellCount && i < CellCount
  {
    LineOfInverse(d, i);
    PosOf(d, i) + |Forward(types, d, LineOf(d, i), PosOf(d, i) + 1, t)|
  }

  lemma RunIsMaximal(types: seq<Cell>, i: nat, t: Cell, d: Direction)
    requires |types| == CellCount && i < CellCount
    ensures MaximalRun(types, d, i, t, RunStart(types, i, t, d), RunEnd(types, i, t, d))
    ensures |FindMatches(types, i, t, d)| == RunEnd(types, i, t, d) - RunStart(types, i, t, d) + 1
  {
    LineOfInverse(d, i);
    forall q | RunStart(types, i, t, d) <= q <= RunEnd(types, i, t, d) && q != PosOf(d, i)
      ensures CellOn(types, d, LineOf(d, i), q) == t
    {
      RunInterior(types, i, t, d, q);
    }
    RunBoundaries(types, i, t, d);
  }

  lemma RunInterior(types: seq<Cell>, i: nat, t: Cell, d: Direction, q: nat)
    requires |types| == CellCount && i < CellCount
    requires RunStart(types, i, t, d) <= q <= RunEnd(types, i, t, d) && q != PosOf(d, i)
    ensures LineOf(d, i) < GridSize && q < GridSize
    ensures CellOn(types, d, LineOf(d, i), q) == t
  {
    LineOfInverse(d, i);
    var line := LineOf(d, i);
    var pos := PosOf(d, i);
    var before := Backward(types, d, line, pos as int - 1, t);
    var after := Forward(types, d, line, pos + 1, t);
    if q < pos {
      assert before[pos - 1 - q] == LineIndex(d, line, q);
    } else {
      assert after[q - pos - 1] == LineIndex(d, line, q);
    }
  }

  lemma RunBoundaries(types: seq<Cell>, i: nat, t: Cell, d: Direction)
    requires |types| == CellCount && i < CellCount
    ensures LineOf(d, i) < GridSize
    ensures RunStart(types, i, t, d) <= PosOf(d, i) <= RunEnd(types, i, t, d) < GridSize
    ensures |FindMatches(types, i, t, d)| == RunEnd(types, i, t, d) - RunStart(types, i, t, d) + 1
    ensures RunStart(types, i, t, d) == 0
         || CellOn(types, d, LineOf(d, i), RunStart(types, i, t, d) - 1) != t
    ensures RunEnd(types, i, t, d) == GridSize - 1
         || CellOn(types, d, LineOf(d, i), RunEnd(types, i, t, d) + 1) != t
  {
    RunSpan(types, i, t, d);
    RunStartEdge(types, i, t, d);
    RunEndEdge(types, i, t, d);
  }

  lemma RunSpan(types: seq<Cell>, i: nat, t: Cell, d: Direction)
    requires |types| == CellCount && i < CellCount
    ensures LineOf(d, i) < GridSize
    ensures RunStart(types, i, t, d) <= PosOf(d, i) <= RunEnd(types, i, t, d) < GridSize
    ensures |FindMatches(types, i, t, d)| == RunEnd(types, i, t, d) - RunStart(types, i, t, d) + 1
  {
    LineOfInverse(d, i);
    var line := LineOf(d, i);
    var pos := PosOf(d, i);
    var before := Backward(types, d, line, pos as int - 1, t);
    var after := Forward(types, d, line, pos + 1, t);
    assert FindMatches(types, i, t, d) == [i] + before + after;
  }

  lemma RunStartEdge(types: seq<Cell>, i: nat, t: Cell, d: Direction)
    requires |types| == CellCount && i < CellCount
    ensures LineOf(d, i) < GridSize && RunStart(types, i, t, d) < GridSize
    ensures RunStart(types, i, t, d) == 0
         || CellOn(types, d, LineOf(d, i), RunStart(types, i, t, d) - 1) != t
  {
    LineOfInverse(d, i);
    var line := LineOf(d, i);
    var pos := PosOf(d, i);
    var before := Backward(types, d, line, pos as int - 1, t);
    assert RunStart(types, i, t, d) == pos - |before|;
    if |before| < pos {
      assert CellOn(types, d, line, pos - |before| - 1) == types[LineIndex(d, line, pos - 1 - |before|)];
    }
  }

  lemma RunEndEdge(types: seq<Cell>, i: nat, t: Cell, d: Direction)
    requires |types| == CellCount && i < CellCount
    ensures LineOf(d, i) < GridSize && RunEnd(types, i, t, d) < GridSize
    ensures RunEnd(types, i, t, d) == GridSize - 1
         || CellOn(types, d, LineOf(d, i), RunEnd(types, i, t, d) + 1) != t
  {
    LineOfInverse(d, i);
    var line := LineOf(d, i);
    var pos := PosOf(d, i);
    var after := Forward(types, d, line, pos + 1, t);
    var hi := RunEnd(types, i, t, d);
    assert hi == pos + |after|;
    if hi < GridSize - 1 {
      assert types[LineIndex(d, line, pos + 1 + |after|)] != t;
      assert CellOn(types, d, line, hi + 1) != t;
    }
  }

  lemma RunMembers(types: seq<Cell>, i: nat, t: Cell, d: Direction, q: nat)
    requires |types| == CellCount && i < CellCount && q < GridSize
    ensures LineIndex(d, LineOf(d, i), q) in FindMatches(types, i, t, d)
        <==> RunStart(types, i, t, d) <= q <= RunEnd(types, i, t, d)
  {
    if RunStart(types, i, t, d) <= q <= RunEnd(types, i, t, d) {
      RunMemberInRange(types, i, t, d, q);
    }
    if LineIndex(d, LineOf(d, i), q) in FindMatches(types, i, t, d) {
      RunMemberOnlyInRange(types, i, t, d, q);
    }
  }

  lemma RunMemberInRange(types: seq<Cell>, i: nat, t: Cell, d: Direction, q: nat)
    requires |types| == CellCount && i < CellCount && q < GridSize
    requires RunStart(types, i, t, d) <= q <= RunEnd(types, i, t, d)
    ensures LineIndex(d, LineOf(d, i), q) in FindMatches(types, i, t, d)
  {
    LineOfInverse(d, i);
    var line := LineOf(d, i);
    var pos := PosOf(d, i);
    var before := Backward(types, d, line, pos as int - 1, t);
    var after := Forward(types, d, line, pos + 1, t);
    var r := FindMatches(types, i, t, d);
    assert r == [i] + before + after;
    var k := Index(pos, |before|, q);
    RunPositionAt(types, d, line, pos, t, before, after, k);
    assert Offset(pos, |before|, k) == q;
    assert r[k] == LineIndex(d, line, q);
  }

  lemma RunMemberOnlyInRange(types: seq<Cell>, i: nat, t: Cell, d: Direction, q: nat)
    requires |types| == CellCount && i < CellCount && q < GridSize
    requires LineIndex(d, LineOf(d, i), q) in FindMatches(types, i, t, d)
    ensures RunStart(types, i, t, d) <= q <= RunEnd(types, i, t, d)
  {
    LineOfInverse(d, i);
    var line := LineOf(d, i);
    var pos := PosOf(d, i);
    var before := Backward(types, d, line, pos as int - 1, t);
    var after := Forward(types, d, line, pos + 1, t);
    assert FindMatches(types, i, t, d) == [LineIndex(d, line, pos)] + before + after;
    EntryPosition(types, d, line, pos, t, before, after, q);
    assert RunStart(types, i, t, d) == pos - |before| && RunEnd(types, i, t, d) == pos + |after|;
  }

  /** The cell at position `q` is an entry of a run only if `q` lies
      between the run's ends. */
  lemma EntryPosition(types: seq<Cell>, d: Direction, line: nat, pos: nat, t: Cell,
                      before: seq<nat>, after: seq<nat>, q: nat)
    requires |types| == CellCount && line < GridSize && pos < GridSize && q < GridSize
    requires before == Backward(types, d, line, pos as int - 1, t)
    requires after == Forward(types, d, line, pos + 1, t)
    requires LineIndex(d, line, q) in [LineIndex(d, line, pos)] + before + after
    ensures pos - |before| <= q <= pos + |after|
  {
    var r := [LineIndex(d, line, pos)] + before + after;
    var k :| 0 <= k < |r| && r[k] == LineIndex(d, line, q);
    RunPositionAt(types, d, line, pos, t, before, after, k);
    var q' := Offset(pos, |before|, k);
    LineIndexInverse(d, line, q);
    LineIndexInverse(d, line, q');
  }

  /** `FindMatches` returns exactly the maximal contiguous run through `i`:
      the cells of positions lo..hi of its line and nothing else. */
  lemma FindMatchesIsMaximalRun(types: seq<Cell>, i: nat, t: Cell, d: Direction)
    requires |types| == CellCount && i < CellCount
    ensures exists lo: nat, hi: nat ::
      && MaximalRun(types, d, i, t, lo, hi)
      && |FindMatches(types, i, t, d)| == hi - lo + 1
      && forall q :: 0 <= q < GridSize ==>
           (LineIndex(d, LineOf(d, i), q) in FindMatches(types, i, t, d) <==> lo <= q <= hi)
  {
    RunIsMaximal(types, i, t, d);
    forall q | 0 <= q < GridSize
      ensures LineIndex(d, LineOf(d, i), q) in FindMatches(types, i, t, d)
          <==> RunStart(types, i, t, d) <= q <= RunEnd(types, i, t, d)
    {
      RunMembers(types, i, t, d, q);
    }
  }

  /** The entry of a run holding position `q`; the inverse of `Offset`. */
  function Index(pos: nat, nb: nat, q: nat): nat
    requires pos - nb <= q
  {
    if q == pos then 0 else if q < pos then pos - q else q - pos + nb
  }

  /** Three consecutive cells of a line, from position `s`, hold tiles of
      one colour. */
  predicate TripleAt(types: seq<Cell>, d: Direction, line: nat, s: nat)
    requires |types| == CellCount && line < GridSize
  {
    && s + 2 < GridSize
    && CellOn(types, d, line, s).Tile?
    && CellOn(types, d, line, s) == CellOn(types, d, line, s + 1)
    && CellOn(types, d, line, s + 1) == CellOn(types, d, line, s + 2)
  }

  /** Cell `j` is one of three consecutive same-coloured tiles along `d`. */
  predicate InLineTriple(types: seq<Cell>, d: Direction, j: nat)
    requires |types| == CellCount && j < CellCount
  {
    LineOfInverse(d, j);
    var line := LineOf(d, j);
    var p := PosOf(d, j);
    || (p >= 2 && TripleAt(types, d, line, p - 2))
    || (p >= 1 && TripleAt(types, d, line, p - 1))
    || TripleAt(types, d, line, p)
  }

  /** Cell `j` is one of three consecutive same-coloured tiles in its row
      or in its column. */
  predicate InTriple(types: seq<Cell>, j: nat)
    requires |types| == CellCount && j < CellCount
  {
    InLineTriple(types, Horizontal, j) || InLineTriple(types, Vertical, j)
  }

  /** The condition under which the board scan marks a run: the cell holds
      a tile and its run along `d` has at least three cells. */
  predicate LongRun(types: seq<Cell>, i: nat, d: Direction)
    requires |types| == CellCount && i < CellCount
  {
    types[i].Tile? && |FindMatches(types, i, types[i], d)| >= 3
  }

  /** Every cell of a run of type `types[i]` through `i`, origin included,
      has that type. */
  lemma RunUniform(types: seq<Cell>, i: nat, d: Direction, q: nat)
    requires |types| == CellCount && i < CellCount
    requires RunStart(types, i, types[i], d) <= q <= RunEnd(types, i, types[i], d)
    ensures LineOf(d, i) < GridSize && q < GridSize
    ensures CellOn(types, d, LineOf(d, i), q) == types[i]
  {
    LineOfInverse(d, i);
    RunBoundaries(types, i, types[i], d);
    if q != PosOf(d, i) {
      RunInterior(types, i, types[i], d, q);
    }
  }

  /** Every cell the scan would mark from cell `i` lies in a line of three. */
  lemma {:induction false} LongRunMembersInTriple(types: seq<Cell>, i: nat, d: Direction, j: nat)
    requires |types| == CellCount && i < CellCount && j < CellCount
    requires LongRun(types, i, d) && j in FindMatches(types, i, types[i], d)
    ensures InLineTriple(types, d, j)
  {
    MemberPosition(types, i, types[i], d, j);
    SpanOfLongRun(types, i, d);
    SpanMemberInTriple(types, i, d, j);
  }

  /** A cell of the line through `i` between the ends of a run of three or
      more lies in a line of three. */
  lemma SpanMemberInTriple(types: seq<Cell>, i: nat, d: Direction, j: nat)
    requires |types| == CellCount && i < CellCount && j < CellCount
    requires types[i].Tile? && LineOf(d, j) == LineOf(d, i)
    requires RunStart(types, i, types[i], d) + 2 <= RunEnd(types, i, types[i], d) < GridSize
    requires RunStart(types, i, types[i], d) <= PosOf(d, j) <= RunEnd(types, i, types[i], d)
    ensures InLineTriple(types, d, j)
  {
    var hi := RunEnd(types, i, types[i], d);
    var q := PosOf(d, j);
    var s: nat := if q + 2 <= hi then q else if q + 1 <= hi then q - 1 else q - 2;
    RunUniform(types, i, d, s);
    RunUniform(types, i, d, s + 1);
    RunUniform(types, i, d, s + 2);
    RunUniform(types, i, d, q);
    LineOfInverse(d, j);
    LineTriple(types, d, j, s);
  }

  /** A member of a run lies on the run's line, between its ends. */
  lemma MemberPosition(types: seq<Cell>, i: nat, t: Cell, d: Direction, j: nat)
    requires |types| == CellCount && i < CellCount
    requires j in FindMatches(types, i, t, d)
    ensures j < CellCount && LineOf(d, j) == LineOf(d, i)
    ensures RunStart(types, i, t, d) <= PosOf(d, j) <= RunEnd(types, i, t, d)
  {
    var r := FindMatches(types, i, t, d);
    var k :| 0 <= k < |r| && r[k] == j;
    LineOfInverse(d, j);
    RunMembers(types, i, t, d, PosOf(d, j));
  }

  lemma SpanOfLongRun(types: seq<Cell>, i: nat, d: Direction)
    requires |types| == CellCount && i < CellCount && LongRun(types, i, d)
    ensures types[i].Tile?
    ensures RunStart(types, i, types[i], d) + 2 <= RunEnd(types, i, types[i], d) < GridSize
  {
    RunBoundaries(types, i, types[i], d);
  }

  lemma LineTriple(types: seq<Cell>, d: Direction, j: nat, s: nat)
    requires |types| == CellCount && j < CellCount
    requires LineOf(d, j) < GridSize && s <= PosOf(d, j) <= s + 2
    requires s + 2 < GridSize && types[j].Tile?
    requires CellOn(types, d, LineOf(d, j), s) == types[j]
    requires CellOn(types, d, LineOf(d, j), s + 1) == types[j]
    requires CellOn(types, d, LineOf(d, j), s + 2) == types[j]
    ensures InLineTriple(types, d, j)
  {
    assert TripleAt(types, d, LineOf(d, j), s);
  }

  /** A cell in a line of three has a run of at least three through it. */
  lemma {:induction false} TripleGivesLongRun(types: seq<Cell>, d: Direction, j: nat)
    requires |types| == CellCount && j < CellCount
    requires InLineTriple(types, d, j)
    ensures LongRun(types, j, d)
  {
    LineOfInverse(d, j);
    var line := LineOf(d, j);
    var p := PosOf(d, j);
    var s: nat :| s <= p <= s + 2 && TripleAt(types, d, line, s);
    TripleAtGivesLongRun(types, d, j, s);
  }

  lemma TripleAtGivesLongRun(types: seq<Cell>, d: Direction, j: nat, s: nat)
    requires |types| == CellCount && j < CellCount
    requires LineOf(d, j) < GridSize && PosOf(d, j) < GridSize
    requires s <= PosOf(d, j) <= s + 2 && TripleAt(types, d, LineOf(d, j), s)
    ensures LongRun(types, j, d)
  {
    TripleAtGivesSpan(types, d, j, s);
    LongRunFromSpan(types, j, d);
  }

  lemma TripleAtGivesSpan(types: seq<Cell>, d: Direction, j: nat, s: nat)
    requires |types| == CellCount && j < CellCount
    requires LineOf(d, j) < GridSize && PosOf(d, j) < GridSize
    requires s <= PosOf(d, j) <= s + 2 && TripleAt(types, d, LineOf(d, j), s)
    ensures types[j].Tile? && RunStart(types, j, types[j], d) + 2 <= RunEnd(types, j, types[j], d)
  {
    var t := types[j];
    LineOfInverse(d, j);
    var line := LineOf(d, j);
    var p := PosOf(d, j);
    assert CellOn(types, d, line, p) == t;
    assert forall x :: s <= x <= s + 2 ==> CellOn(types, d, line, x) == t;
    BackwardCovers(types, d, line, p as int - 1, t, s);
    ForwardCovers(types, d, line, p + 1, t, s + 2);
  }

  /** A walk backward from `p` over cells that all have type `t` down to
      position `q` collects at least those cells. */
  lemma {:induction false} BackwardCovers(types: seq<Cell>, d: Direction, line: nat, p: int, t: Cell, q: nat)
    requires |types| == CellCount && line < GridSize && -1 <= p < GridSize && q <= p + 1
    requires forall x: nat :: q <= x <= p ==> CellOn(types, d, line, x) == t
    ensures |Backward(types, d, line, p, t)| >= p - q + 1
    decreases p + 1
  {
    if q <= p {
      assert CellOn(types, d, line, p) == t;
      BackwardCovers(types, d, line, p - 1, t, q);
    }
  }

  /** A walk forward from `p` over cells that all have type `t` up to
      position `q` collects at least those cells. */
  lemma {:induction false} ForwardCovers(types: seq<Cell>, d: Direction, line: nat, p: nat, t: Cell, q: nat)
    requires |types| == CellCount && line < GridSize && p <= q + 1 && q < GridSize
    requires forall x: nat :: p <= x <= q ==> CellOn(types, d, line, x) == t
    ensures |Forward(types, d, line, p, t)| >= q + 1 - p
    decreases GridSize - p
  {
    if p <= q {
      assert CellOn(types, d, line, p) == t;
      ForwardCovers(types, d, line, p + 1, t, q);
    }
  }

  lemma LongRunFromSpan(types: seq<Cell>, j: nat, d: Direction)
    requires |types| == CellCount && j < CellCount && types[j].Tile?
    requires RunStart(types, j, types[j], d) + 2 <= RunEnd(types, j, types[j], d)
    ensures LongRun(types, j, d)
  {
    RunBoundaries(types, j, types[j], d);
  }

  lemma LongRunIffTriple(types: seq<Cell>, j: nat, d: Direction)
    requires |types| == CellCount && j < CellCount
    ensures LongRun(types, j, d) <==> InLineTriple(types, d, j)
  {
    if LongRun(types, j, d) {
      LongRunMembersInTriple(types, j, d, j);
    }
    if InLineTriple(types, d, j) {
      TripleGivesLongRun(types, d, j);
    }
  }
}

=== FILE: scan.dfy ===
/** The whole-board match scan: every run of three or more is flagged cell
    by cell, each flag scores once, and the cells flagged by this scan are
    scheduled to be emptied. */
module Scan {
  import opened Grid
  import opened Matching

  /** Points for each newly flagged cell. */
  const PointsPerTile: nat := 10

  /** What a scan has done so far: the flags, the score, and the cells it
      flagged itself, whose clearing it has scheduled. */
  datatype ScanState = ScanState(matched: seq<bool>, score: nat, cleared: set<nat>)
  {
    /** Every cell scheduled for clearing is flagged. */
    predicate Consistent() {
      forall j :: j in cleared ==> j < |matched| && matched[j]
    }
  }

  /** Flags cell `idx` and scores it, unless its flag is already set. */
  function MarkTileMatched(s: ScanState, idx: nat): (r: ScanState)
    requires idx < |s.matched|
    ensures |r.matched| == |s.matched| && r.matched[idx]
    ensures forall j :: 0 <= j < |s.matched| && j != idx ==> r.matched[j] == s.matched[j]
    ensures s.matched[idx] ==> r == s
    ensures !s.matched[idx] ==> r.score == s.score + PointsPerTile && r.cleared == s.cleared + {idx}
    ensures s.Consistent() ==>
      (r.Consistent() && s.cleared <= r.cleared && r.score == s.score + PointsPerTile * (|r.cleared| - |s.cleared|))
  {
    if s.matched[idx] then s
    else ScanState(s.matched[idx := true], s.score + PointsPerTile, s.cleared + {idx})
  }

  /** Marking a cell a second time changes nothing. */
  lemma MarkIdempotent(s: ScanState, idx: nat)
    requires idx < |s.matched|
    ensures MarkTileMatched(MarkTileMatched(s, idx), idx) == MarkTileMatched(s, idx)
  {
  }

  /** Marks every cell of `idxs` in order. */
  function MarkAll(s: ScanState, idxs: seq<nat>): (r: ScanState)
    requires s.Consistent()
    requires forall k :: 0 <= k < |idxs| ==> idxs[k] < |s.matched|
    ensures |r.matched| == |s.matched| && r.Consistent()
    ensures forall j :: 0 <= j < |s.matched| ==> (r.matched[j] <==> s.matched[j] || j in idxs)
    ensures forall j :: j in r.cleared <==> j in s.cleared || (0 <= j < |s.matched| && !s.matched[j] && j in idxs)
    ensures s.cleared <= r.cleared && r.score == s.score + PointsPerTile * (|r.cleared| - |s.cleared|)
    decreases |idxs|
  {
    if |idxs| == 0 then s
    else MarkAll(MarkTileMatched(s, idxs[0]), idxs[1..])
  }

  /** The scan at cell `k` marks cell `j`: `k` holds a tile and `j` is in a
      run of three or more through `k`, in either direction. */
  predicate MarksCell(types: seq<Cell>, k: nat, j: nat)
    requires |types| == CellCount && k < CellCount
  {
    || (LongRun(types, k, Horizontal) && j in FindMatches(types, k, types[k], Horizontal))
    || (LongRun(types, k, Vertical) && j in FindMatches(types, k, types[k], Vertical))
  }

  /** Some cell from `i` on marks `j`. */
  predicate MarkedFrom(types: seq<Cell>, i: nat, j: nat)
    requires |types| == CellCount
  {
    exists k :: i <= k < CellCount && MarksCell(types, k, j)
  }

  /** Some cell from `i` on holds a tile with a run of three or more. */
  predicate RunFrom(types: seq<Cell>, i: nat)
    requires |types| == CellCount
  {
    exists k :: i <= k < CellCount && (LongRun(types, k, Horizontal) || LongRun(types, k, Vertical))
  }

  lemma MarkedFromStep(types: seq<Cell>, i: nat, j: nat)
    requires |types| == CellCount && i < CellCount
    ensures MarkedFrom(types, i, j) <==> MarksCell(types, i, j) || MarkedFrom(types, i + 1, j)
  {
    if MarkedFrom(types, i, j) {
      var k :| i <= k < CellCount && MarksCell(types, k, j);
      if k > i {
        assert MarkedFrom(types, i + 1, j);
      }
    }
  }

  lemma RunFromStep(types: seq<Cell>, i: nat)
    requires |types| == CellCount && i < CellCount
    ensures RunFrom(types, i) <==>
      LongRun(types, i, Horizontal) || LongRun(types, i, Vertical) || RunFrom(types, i + 1)
  {
    if RunFrom(types, i) {
      var k :| i <= k < CellCount && (LongRun(types, k, Horizontal) || LongRun(types, k, Vertical));
      if k > i {
        assert RunFrom(types, i + 1);
      }
    }
    if RunFrom(types, i + 1) {
      var k :| i + 1 <= k < CellCount && (LongRun(types, k, Horizontal) || LongRun(types, k, Vertical));
      assert i <= k;
    }
    if LongRun(types, i, Horizontal) || LongRun(types, i, Vertical) {
      assert i <= i < CellCount;
    }
  }

  /** The scan of cells i..63 as the source's loop does it: a cell holding
      a tile has its horizontal run marked if it has three or more cells,
      then its vertical run likewise; `found` records whether any did. */
  function ScanFrom(types: seq<Cell>, s: ScanState, found: bool, i: nat): (r: (ScanState, bool))
    requires |types| == CellCount && |s.matched| == CellCount && s.Consistent() && i <= CellCount
    ensures |r.0.matched| == CellCount && r.0.Consistent()
    ensures forall j :: 0 <= j < CellCount ==> (r.0.matched[j] <==> s.matched[j] || MarkedFrom(types, i, j))
    ensures forall j :: j in r.0.cleared <==>
      j in s.cleared || (0 <= j < CellCount && !s.matched[j] && MarkedFrom(types, i, j))
    ensures s.cleared <= r.0.cleared && r.0.score == s.score + PointsPerTile * (|r.0.cleared| - |s.cleared|)
    ensures r.1 <==> found || RunFrom(types, i)
    decreases CellCount - i
  {
    if i == CellCount then
      (s, found)
    else if types[i].Empty? then
      ScanFromStep(types, i);
      ScanFrom(types, s, found, i + 1)
    else
      var h := FindMatches(types, i, types[i], Horizontal);
      var v := FindMatches(types, i, types[i], Vertical);
      var s1 := if |h| >= 3 then MarkAll(s, h) else s;
      var s2 := if |v| >= 3 then MarkAll(s1, v) else s1;
      ScanFromStep(types, i);
      ScanFrom(types, s2, found || |h| >= 3 || |v| >= 3, i + 1)
  }

  lemma ScanFromStep(types: seq<Cell>, i: nat)
    requires |types| == CellCount && i < CellCount
    ensures forall j :: MarkedFrom(types, i, j) <==> MarksCell(types, i, j) || MarkedFrom(types, i + 1, j)
    ensures RunFrom(types, i) <==>
      LongRun(types, i, Horizontal) || LongRun(types, i, Vertical) || RunFrom(types, i + 1)
  {
    forall j
      ensures MarkedFrom(types, i, j) <==> MarksCell(types, i, j) || MarkedFrom(types, i + 1, j)
    {
      MarkedFromStep(types, i, j);
    }
    RunFromStep(types, i);
  }

  /** The cells some scanned cell marks are exactly the cells lying in a
      line of three same-coloured tiles. */
  lemma MarkedIffTriple(types: seq<Cell>, j: nat)
    requires |types| == CellCount && j < CellCount
    ensures MarkedFrom(types, 0, j) <==> InTriple(types, j)
  {
    if MarkedFrom(types, 0, j) {
      var k :| 0 <= k < CellCount && MarksCell(types, k, j);
      if LongRun(types, k, Horizontal) && j in FindMatches(types, k, types[k], Horizontal) {
        LongRunMembersInTriple(types, k, Horizontal, j);
      } else {
        LongRunMembersInTriple(types, k, Vertical, j);
      }
    }
    if InTriple(types, j) {
      LongRunIffTriple(types, j, Horizontal);
      LongRunIffTriple(types, j, Vertical);
      assert MarksCell(types, j, j);
    }
  }

  /** Some cell has a run of three or more exactly when some cell lies in
      a line of three. */
  lemma RunIffTriple(types: seq<Cell>)
    requires |types| == CellCount
    ensures RunFrom(types, 0) <==> exists j :: 0 <= j < CellCount && InTriple(types, j)
  {
    if RunFrom(types, 0) {
      var k :| 0 <= k < CellCount && (LongRun(types, k, Horizontal) || LongRun(types, k, Vertical));
      LongRunIffTriple(types, k, Horizontal);
      LongRunIffTriple(types, k, Vertical);
      assert InTriple(types, k);
    }
    if exists j :: 0 <= j < CellCount && InTriple(types, j) {
      var j :| 0 <= j < CellCount && InTriple(types, j);
      LongRunIffTriple(types, j, Horizontal);
      LongRunIffTriple(types, j, Vertical);
      assert LongRun(types, j, Horizontal) || LongRun(types, j, Vertical);
    }
  }

  lemma ScanMeansTriples(types: seq<Cell>)
    requires |types| == CellCount
    ensures forall j :: 0 <= j < CellCount ==> (MarkedFrom(types, 0, j) <==> InTriple(types, j))
    ensures RunFrom(types, 0) <==> exists j :: 0 <= j < CellCount && InTriple(types, j)
  {
    forall j | 0 <= j < CellCount
      ensures MarkedFrom(types, 0, j) <==> InTriple(types, j)
    {
      MarkedIffTriple(types, j);
    }
    RunIffTriple(types);
  }

  /** The outcome of one whole-board scan. */
  datatype CheckResult = CheckResult(found: bool, board: Board, score: nat, cleared: set<nat>)

  /** One call of the board scan: flags every cell of every run of three or
      more, scores each cell whose flag it sets, and reports the cells it
      flagged (whose clearing it schedules) and whether any run was found. */
  function CheckMatches(b: Board, score: nat): (r: CheckResult)
    requires b.Valid()
    ensures r.board.Valid() && r.board.types == b.types
    ensures forall j :: 0 <= j < CellCount ==> (r.board.matched[j] <==> b.matched[j] || InTriple(b.types, j))
    ensures forall j :: j in r.cleared <==> 0 <= j < CellCount && !b.matched[j] && InTriple(b.types, j)
    ensures r.score == score + PointsPerTile * |r.cleared|
    ensures r.found <==> RunFrom(b.types, 0)
    ensures r.found <==> exists j :: 0 <= j < CellCount && InTriple(b.types, j)
  {
    var (s, found) := ScanFrom(b.types, ScanState(b.matched, score, {}), false, 0);
    ScanMeansTriples(b.types);
    CheckResult(found, b.(matched := s.matched), s.score, s.cleared)
  }

  /** Empties the cells a scan flagged; every other cell, including a
      flagged cell left from an earlier scan, keeps its tile. */
  function ClearCells(b: Board, cleared: set<nat>): (r: Board)
    requires b.Valid()
    ensures r.Valid() && r.matched == b.matched
    ensures forall j :: 0 <= j < CellCount ==> (r.types[j].Empty? <==> j in cleared || b.types[j].Empty?)
    ensures forall j :: 0 <= j < CellCount && j !in cleared ==> r.types[j] == b.types[j]
  {
    b.(types := seq(CellCount, j requires 0 <= j < CellCount => if j in cleared then Empty else b.types[j]))
  }

  /** The cells a scan of `b` flags for the first time: the unflagged cells
      lying in a line of three. */
  function NewlyMatched(b: Board): (r: set<nat>)
    requires b.Valid()
    ensures forall j :: j in r <==> 0 <= j < CellCount && !b.matched[j] && InTriple(b.types, j)
  {
    set j | 0 <= j < CellCount && !b.matched[j] && InTriple(b.types, j)
  }

  /** No cell of the board lies in a line of three. */
  predicate NoTriples(types: seq<Cell>)
    requires |types| == CellCount
  {
    forall j :: 0 <= j < CellCount ==> !InTriple(types, j)
  }

  /** A scan scores exactly the cells it flags for the first time, and a
      scan that finds no run leaves board and score as they were. */
  lemma CheckClearsNewlyMatched(b: Board, score: nat)
    requires b.Valid()
    ensures CheckMatches(b, score).cleared == NewlyMatched(b)
    ensures CheckMatches(b, score).score == score + PointsPerTile * |NewlyMatched(b)|
    ensures !CheckMatches(b, score).found <==> NoTriples(b.types)
    ensures !CheckMatches(b, score).found ==>
      CheckMatches(b, score).board == b && CheckMatches(b, score).score == score
  {
    var r := CheckMatches(b, score);
    assert r.cleared == NewlyMatched(b);
    if !r.found {
      assert r.board.matched == b.matched;
      assert NewlyMatched(b) == {};
    }
  }

  /** A scan of a board whose every line of three lies on flagged cells
      flags, scores and schedules nothing. */
  lemma CheckWithStaleFlags(b: Board, score: nat)
    requires b.Valid()
    requires forall j :: 0 <= j < CellCount && InTriple(b.types, j) ==> b.matched[j]
    ensures CheckMatches(b, score).board == b
    ensures CheckMatches(b, score).cleared == {} && CheckMatches(b, score).score == score
  {
    var r := CheckMatches(b, score);
    assert r.board.matched == b.matched;
    assert r.cleared == {};
  }
}

=== FILE: session.dfy ===
/** The game session: a fresh board per level, the drop of one tile on
    another, the cascade of clears and gravity a match sets off, the level
    target test and the advance to the next level. Each timer of the game
    is one step here, taken in the order the timers fire. */
module Session {
  import opened Grid
  import opened Matching
  import opened Scan
  import opened Gravity

  /** Number of levels; after the last one the game is over. */
  const TotalLevels: nat := 5

  /** The score a level needs, level 1 first. */
  const LevelTargets: seq<nat> := [50, 55, 60, 65, 70]

  /** The state of a game: the board, the score of the current level and
      the level number, counted from 1. */
  datatype Game = Game(board: Board, score: nat, level: nat)
  {
    predicate Over() {
      level > TotalLevels
    }
  }

  /** A board of tiles with the colour indices `fill`, cell by cell, and no
      flag set. */
  function CreateBoard(fill: seq<nat>): (r: Board)
    requires |fill| == CellCount
    ensures r.Valid()
    ensures forall i :: 0 <= i < CellCount ==> r.types[i] == Tile(fill[i]) && !r.matched[i]
    ensures (forall i :: 0 <= i < CellCount ==> fill[i] < Palette) ==> InPalette(r.types)
  {
    Board(seq(CellCount, i requires 0 <= i < CellCount => Tile(fill[i])), seq(CellCount, _ => false))
  }

  /** The game at start-up: level 1, score 0, a fresh board. */
  function NewGame(fill: seq<nat>): (g: Game)
    requires |fill| == CellCount
    ensures g.level == 1 && g.score == 0 && !g.Over()
    ensures g.board.Valid() && forall i :: 0 <= i < CellCount ==> g.board.types[i] == Tile(fill[i])
  {
    Game(CreateBoard(fill), 0, 1)
  }

  /** Whether `score` reaches the target of `level`. A level outside
      1..TotalLevels has no target and is never complete. */
  predicate LevelComplete(score: nat, level: nat) {
    1 <= level <= TotalLevels && score >= LevelTargets[level - 1]
  }

  /** The target starts at 50 and rises by 5 per level. */
  lemma TargetsRiseByFive(level: nat)
    requires 1 <= level <= TotalLevels
    ensures LevelTargets[level - 1] == 45 + 5 * level
    ensures forall s: nat :: LevelComplete(s, level) <==> s >= 45 + 5 * level
  {
  }

  /** Advances to the next level. After the last level the game is over and
      keeps its board and score; otherwise a fresh board is dealt with
      `fill` and the score starts again from 0. */
  function NextLevel(g: Game, fill: seq<nat>): (r: Game)
    requires |fill| == CellCount
    ensures r.level == g.level + 1
    ensures r.Over() <==> g.level >= TotalLevels
    ensures r.Over() ==> r.board == g.board && r.score == g.score
    ensures !r.Over() ==> r.score == 0 && r.board == CreateBoard(fill)
  {
    if g.level + 1 > TotalLevels then Game(g.board, g.score, g.level + 1)
    else Game(CreateBoard(fill), 0, g.level + 1)
  }

  /** Where a cascade ended: the board, the score, the number of cells its
      own scans flagged for the first time, and whether it ended because a
      scan found no run (rather than by running out of `fuel`). */
  datatype CascadeResult = CascadeResult(board: Board, score: nat, flaggedCount: nat, settled: bool)

  /** One round of the chain a scan sets off: the cells it scheduled are
      emptied, gravity runs its passes from pass `n`, and the board is
      scanned again. Returns that scan and the index of the next pass. */
  function Round(b: Board, cleared: set<nat>, score: nat, draw: Draw, n: nat): (r: (CheckResult, nat))
    requires b.Valid()
    ensures r.0.board.Valid() && r.1 > n
    ensures r.0.score == score + PointsPerTile * |r.0.cleared|
    ensures r.0.found <==> !NoTriples(r.0.board.types)
    ensures !r.0.found ==> r.0.cleared == {}
    ensures forall j :: 0 <= j < CellCount && InTriple(r.0.board.types, j) ==> r.0.board.matched[j]
    ensures forall j :: j in r.0.cleared ==> j < CellCount && r.0.board.matched[j]
    ensures forall j :: j in r.0.cleared ==> j < CellCount && InTriple(r.0.board.types, j)
    ensures forall j :: 0 <= j < CellCount && InTriple(r.0.board.types, j) && !b.matched[j] ==> j in r.0.cleared
    ensures forall j :: 0 <= j < CellCount && Row(j) > 0 ==>
      (j in r.0.cleared <==> InTriple(r.0.board.types, j) && !b.matched[j])
    ensures forall c :: 0 <= c < GridSize ==>
      IsSuffix(Tiles(Column(ClearCells(b, cleared).types, c)), Tiles(Column(r.0.board.types, c)))
    ensures ValidDraw(draw) && InPalette(b.types) ==> InPalette(r.0.board.types)
  {
    var g := ApplyGravity(ClearCells(b, cleared), draw, n);
    ClearedInPalette(b, cleared);
    CheckClearsNewlyMatched(g.board, score);
    (CheckMatches(g.board, score), g.nextPass)
  }

  /** The chain that follows a scan which found a run: rounds are repeated
      for as long as the scan of a round finds a run; `fuel` bounds the
      number of rounds after the first. */
  function Cascade(b: Board, cleared: set<nat>, score: nat, draw: Draw, n: nat, fuel: nat): (r: CascadeResult)
    requires b.Valid()
    ensures r.board.Valid()
    ensures r.score == score + PointsPerTile * r.flaggedCount
    ensures r.settled ==> NoTriples(r.board.types)
    ensures ValidDraw(draw) && InPalette(b.types) ==> InPalette(r.board.types)
    decreases fuel
  {
    var round := Round(b, cleared, score, draw, n);
    var chk := round.0;
    if !chk.found then
      CascadeResult(chk.board, chk.score, 0, true)
    else if fuel == 0 then
      CascadeResult(chk.board, chk.score, |chk.cleared|, false)
    else
      var rest := Cascade(chk.board, chk.cleared, chk.score, draw, round.1, fuel - 1);
      CascadeResult(rest.board, rest.score, |chk.cleared| + rest.flaggedCount, rest.settled)
  }

  lemma ClearedInPalette(b: Board, cleared: set<nat>)
    requires b.Valid()
    ensures InPalette(b.types) ==> InPalette(ClearCells(b, cleared).types)
  {
  }

  /** What one drop did: the game afterwards, and whether the level check
      the drop makes found the level complete. */
  datatype DropResult = DropResult(game: Game, levelComplete: bool, settled: bool)

  /** Dropping the dragged tile `source` on tile `target`. A drop on a cell
      that is not a neighbour does nothing. Otherwise the two tiles swap and
      the board is scanned; the level check compares the score after that
      one scan with the target, before any cascade; a scan that found a run
      sets off the cascade, whose points count towards later checks. */
  function Drop(g: Game, source: nat, target: nat, draw: Draw, fuel: nat): (r: DropResult)
    requires g.board.Valid() && source < CellCount && target < CellCount
    ensures r.game.board.Valid() && r.game.level == g.level && r.game.score >= g.score
    ensures !IsNeighbor(source, target) ==> r.game == g && !r.levelComplete
    ensures IsNeighbor(source, target) ==>
      (r.levelComplete <==>
        LevelComplete(g.score + PointsPerTile * |NewlyMatched(SwapTiles(g.board, source, target))|, g.level))
    ensures IsNeighbor(source, target) && NoTriples(SwapTiles(g.board, source, target).types) ==>
      r.game == Game(SwapTiles(g.board, source, target), g.score, g.level) && r.settled
    ensures r.settled ==> NoTriples(r.game.board.types)
    ensures ValidDraw(draw) && InPalette(g.board.types) ==> InPalette(r.game.board.types)
  {
    if !IsNeighbor(source, target) then
      DropResult(g, false, NoTriples(g.board.types))
    else
      var swapped := SwapTiles(g.board, source, target);
      var chk := CheckMatches(swapped, g.score);
      var complete := LevelComplete(chk.score, g.level);
      SwapKeepsPalette(g.board, source, target);
      CheckClearsNewlyMatched(swapped, g.score);
      if !chk.found then
        DropResult(Game(chk.board, chk.score, g.level), complete, true)
      else
        var c := Cascade(chk.board, chk.cleared, chk.score, draw, 0, fuel);
        DropResult(Game(c.board, c.score, g.level), complete, c.settled)
  }

  lemma SwapKeepsPalette(b: Board, i: nat, j: nat)
    requires b.Valid() && i < CellCount && j < CellCount
    ensures InPalette(b.types) ==> InPalette(SwapTiles(b, i, j).types)
  {
    var r := SwapTiles(b, i, j);
    if InPalette(b.types) {
      forall k | 0 <= k < CellCount && r.types[k].Tile?
        ensures r.types[k].kind < Palette
      {
        if k != i && k != j {
          assert r.types[k] == b.types[k];
        }
      }
    }
  }

  /** One drop and, if it completed the level, the advance to the next
      level with a fresh board dealt from `fill`. */
  function Turn(g: Game, source: nat, target: nat, draw: Draw, fuel: nat, fill: seq<nat>): (r: Game)
    requires g.board.Valid() && source < CellCount && target < CellCount && |fill| == CellCount
    ensures r.board.Valid()
    ensures !IsNeighbor(source, target) ==> r == g
    ensures r.level == g.level || r.level == g.level + 1
    ensures r.level == g.level + 1 ==> 1 <= g.level <= TotalLevels
    ensures r.level == g.level + 1 <==>
      IsNeighbor(source, target) &&
      LevelComplete(g.score + PointsPerTile * |NewlyMatched(SwapTiles(g.board, source, target))|, g.level)
    ensures r.level == g.level + 1 && !r.Over() ==>
      r.score == 0 && forall i :: 0 <= i < CellCount ==> r.board.types[i] == Tile(fill[i]) && !r.board.matched[i]
  {
    var d := Drop(g, source, target, draw, fuel);
    if d.levelComplete then NextLevel(d.game, fill) else d.game
  }

  /** A full board whose every line of three (and there is one) sits on
      cells already flagged. */
  predicate Stuck(b: Board)
    requires b.Valid()
  {
    && (forall i :: 0 <= i < CellCount ==> b.types[i].Tile?)
    && (exists j :: 0 <= j < CellCount && InTriple(b.types, j))
    && (forall j :: 0 <= j < CellCount && InTriple(b.types, j) ==> b.matched[j])
  }

  /** A flag stays with its position after the tile on it is cleared, so a
      round on a stuck board gives back the very board it started from and
      reports a run again: nothing is cleared, gravity makes one idle pass,
      and the scan flags, scores and schedules nothing. The chain, which
      goes on while its scan reports a run, therefore never ends. */
  lemma StuckRoundRepeats(b: Board, score: nat, draw: Draw, n: nat)
    requires b.Valid() && Stuck(b)
    ensures Round(b, {}, score, draw, n) == (CheckResult(true, b, score, {}), n + 1)
  {
    assert ClearCells(b, {}) == b;
    FullBoardUnchanged(b, draw, n);
    CheckWithStaleFlags(b, score);
  }
}
